=== FILE: README.md ===
# Limited-edition apparel registry: accounts and catalog rules

This project models, in Dafny, the rules of a Django registry of limited-edition
apparel that can be stated from its account and catalog code:

- **Token lifecycles** (`AccountModels`). A one-time registration token expires
  seven days after its first save, and a recovery token one hour after. A token is
  active while it is neither claimed/used nor past its expiry. The comparison is
  strict, so a token is still active at the exact expiry instant. Claiming or using
  a token makes it inactive for good. `User.save` gives a user with a blank profile
  slug a fresh twelve-hex-digit slug.
- **Account flows** (`AccountFlows`). These are:
  - creating a registration token for a non-empty list of existing, unowned items;
  - claiming the token, which creates the user with the token's email, makes that
    user the owner of exactly the token's items and marks the token claimed;
  - finding a user by username or email for recovery;
  - confirming recovery, which changes only that user's password and marks the
    token used.

  The database is a `Store` of maps. The invariant `Valid` collects what the
  database's keys, foreign keys and unique constraints guarantee. It also includes
  what the `save` hooks establish for every stored row: a non-blank profile slug
  and a set token expiry. Every flow preserves it.
- **Item validation** (`CatalogModels`). `save` always runs full validation first:
  field checks, then `clean` (remaining quantity never exceeds the edition size),
  then slug uniqueness. So no stored item breaks these rules. Rarity and size are
  closed choice lists.
- **Unit views** (`CatalogViews`). Lookup by access code returns the unit when
  exactly one unit has the code, not-found when none does (or the code is not
  routable), and a multiple-rows failure when several do. A unit patch makes an authenticated requester the
  owner when the patch carries no owner.

Time is an integer count of seconds, and the current time is a parameter. Token
values (UUIDs) are chosen by the caller. A value already in use is rejected as the
database's unique constraint would reject it. The random UUIDs drawn for profile
slugs are a finite sequence of candidates passed in.

Where the code and its surroundings disagree, the model follows the code:

- `catalog/models.py` declares the item's `owner` foreign key as non-nullable, so
  `save` rejects an item without an owner (`OwnerField` in `FieldErrors`). A later
  migration and the account tests treat the column as nullable. The account flows
  work on an owner column that may be empty, as the serializers assume.
- `create_user` does not re-check ownership when a token is claimed. An item handed
  to someone else after the token was created changes hands again. `CreateUser`
  states this.

## Model

| member | source | states |
|---|---|---|
| `AccountModels.FirstFreeCandidate` | accounts/models.py:45-48 | the index found is the first candidate whose slug is free; every earlier candidate's slug is taken |
| `AccountModels.GenerateProfileSlug` | accounts/models.py:42-48 | a generated slug is 12 lower-case hex digits, comes from one of the drawn UUIDs and differs from every existing slug; no slug only when every drawn candidate is taken |
| `AccountModels.SaveUser` | accounts/models.py:37-40 | a non-blank slug is kept unchanged; a blank one is replaced by a fresh slug and nothing else about the user changes |
| `AccountModels.SaveRegistration` | accounts/models.py:94-97 | after save the expiry is always set; an existing expiry is kept; an unset one becomes now + 7 days |
| `AccountModels.IsRegistrationActive` | accounts/models.py:99-107 | a claimed token is never active; an unclaimed token without expiry is active; an unclaimed token with expiry is active iff now <= expiry (strict `<` for expiry) |
| `AccountModels.MarkClaimed` | accounts/models.py:109-114 | records the claiming user and claim time, changes nothing else, and the token is inactive at every later time |
| `AccountModels.SaveRegistrationIdempotent` | accounts/models.py:94-97 | a second save never changes a saved token's expiry |
| `AccountModels.RegistrationInactiveStaysInactive` | accounts/models.py:100-107 | once inactive, a registration token is inactive at every later time |
| `AccountModels.FreshRegistrationLifetime` | accounts/models.py:94-107 | a newly saved unclaimed token is active exactly up to and including save time + 7 days |
| `AccountModels.SaveRecovery` | accounts/models.py:135-138 | after save the expiry is always set; an existing expiry is kept; an unset one becomes now + 1 hour |
| `AccountModels.IsRecoveryActive` | accounts/models.py:140-146 | a used token is never active; an unused token is active iff it has no expiry or now <= expiry |
| `AccountModels.MarkUsed` | accounts/models.py:148-150 | records the use time only, and the token is inactive at every later time |
| `AccountModels.SaveRecoveryIdempotent` | accounts/models.py:135-138 | a second save never changes a saved recovery token's expiry |
| `AccountModels.RecoveryInactiveStaysInactive` | accounts/models.py:140-146 | once inactive, a recovery token is inactive at every later time |
| `AccountModels.FreshRecoveryLifetime` | accounts/models.py:135-146 | a newly saved unused recovery token is active exactly up to and including save time + 1 hour |
| `AccountFlows.ValidateItemIds` | accounts/serializers.py:70-88 | accepts iff the list is non-empty and every id is an existing unowned item; the result holds exactly the requested ids; the error is the empty-list one or `item_claimed` |
| `AccountFlows.CreateRegistrationToken` | accounts/serializers.py:90-98 | the new token carries the email and item ids, order reference defaulting to "", expires 7 days on, is unclaimed and active; other tokens and tables are unchanged; a taken token value is rejected |
| `AccountFlows.RequestRegistrationToken` | accounts/serializers.py:66-98 | an empty list and an id naming a missing or owned item are rejected; with valid ids, a blank email or a NUL character in the email or order reference is a field error, and otherwise the outcome is token creation with those ids; items and users are untouched |
| `AccountFlows.ValidateClaim` | accounts/serializers.py:118-128 | succeeds iff the token exists and is active, returning it; otherwise `invalid_token` |
| `AccountFlows.CreateUser` | accounts/serializers.py:130-143 | succeeds whenever the username is free and some drawn slug is free; the new user gets a fresh id and slug, the token's email and the given fields; every existing item named by the token gets the new owner and every other item keeps its owner; the token becomes claimed; a duplicate username is rejected; slug exhaustion happens exactly when every drawn slug is taken |
| `AccountFlows.Claim` | accounts/serializers.py:101-143 | field errors come first (a username outside 3 to 150 characters, a blank password, a NUL character in any text field), then a missing or inactive token; otherwise the outcome is exactly `create_user`'s |
| `AccountFlows.NoDoubleClaim` | accounts/serializers.py:118-142 | after a successful claim, any further claim with the same token fails, whatever the time or fields, and fails as `invalid_token` when its fields are valid |
| `AccountFlows.GetUser` | accounts/serializers.py:166-170 | none iff no user's username or email equals the identifier; otherwise the smallest id among the users that match |
| `AccountFlows.CreateRecoveryToken` | accounts/serializers.py:172-173 | the new token belongs to the user, expires one hour on, is unused and active; nothing else changes; a taken token value is rejected |
| `AccountFlows.ValidateRecovery` | accounts/serializers.py:190-200 | succeeds iff the token exists and is active, returning it; otherwise `invalid_token` |
| `AccountFlows.UpdatePassword` | accounts/serializers.py:202-208 | only the token user's password changes; all other users, items and registration tokens are unchanged; the token is marked used |
| `AccountFlows.ConfirmRecovery` | accounts/serializers.py:176-208 | a blank new password or one containing a NUL character is a field error; otherwise succeeds iff the token exists and is active, and then equals `update_password`; otherwise `invalid_token` |
| `AccountFlows.NoDoubleRecovery` | accounts/serializers.py:190-208 | after a successful confirmation, confirming with the same token again is rejected, as `invalid_token` when the new password passes the field checks |
| `AccountFlows.RequestPreservesValid` | accounts/serializers.py:79-98 | token creation keeps the store's key, foreign-key and uniqueness invariant |
| `AccountFlows.ClaimPreservesValid` | accounts/serializers.py:130-143 | a claim keeps the invariant: usernames and slugs stay unique, owners and claimers are existing users |
| `AccountFlows.RecoveryRequestPreservesValid` | accounts/serializers.py:172-173 | recovery token creation keeps the invariant |
| `AccountFlows.ConfirmPreservesValid` | accounts/serializers.py:202-208 | recovery confirmation keeps the invariant |
| `CatalogModels.ParseRarity` | catalog/models.py:38-42 | a value parses iff it is the stored value of one of common/rare/epic/legendary |
| `CatalogModels.ParseSize` | catalog/models.py:44-50 | a value parses iff it is the stored value of one of XS/S/M/L/XL/XXL, at most 3 characters |
| `CatalogModels.NewItem` | catalog/models.py:59-63 | a new item's rarity defaults to common |
| `CatalogModels.FieldErrors` | catalog/models.py:52-75 | per column: name non-blank and at most 255 characters; slug non-blank, at most 255 characters of letters, digits, `-`, `_`; collection exists; rarity and size are the stored value of some choice; edition size and remaining in 0..2147483647; product URL non-blank and at most 200 characters; owner present and an existing user |
| `CatalogModels.Clean` | catalog/models.py:90-97 | reports the remaining-quantity error exactly when remaining > edition size, and nothing else |
| `CatalogModels.UniqueErrors` | catalog/models.py:53-80 | a slug error iff another item has the slug; a (collection, slug) error iff another item of the same collection has it; neither check runs for a field that already failed |
| `CatalogModels.FullClean` | catalog/models.py:53-103 | the remaining-quantity error is present iff remaining > edition size; no field error iff every field passes; no error at all iff every field passes, remaining <= edition size and no other item has the slug |
| `CatalogModels.Save` | catalog/models.py:99-103 | stores the item iff full validation finds nothing, and a stored item has 0 <= remaining <= edition size <= 2147483647; otherwise the store is unchanged and the errors are returned |
| `CatalogModels.ValidCatalogFacts` | catalog/models.py:64-80 | in a valid catalog every item has 0 <= remaining <= edition size, a known rarity and size, and a slug no other item has |
| `CatalogModels.SavePreservesValid` | catalog/models.py:90-103 | a successful save keeps every stored item valid, so saves never store remaining > edition size |
| `CatalogModels.CleanAcceptsFullEdition` | catalog/models.py:94 | remaining equal to edition size passes `clean` |
| `CatalogViews.UnitsWithCode` | catalog/views.py:47-50 | the result holds exactly the units whose access code equals the argument: none when no unit has it, at most one when at most one unit has it, at least two when two units share it |
| `CatalogViews.Lookup` | catalog/views.py:43-52 | found iff the code is routable and exactly one unit has it, and then the result is that unit; not-found iff the code is not `[A-Za-z0-9]+` or no unit has it; several rows iff the code is routable and two units share it |
| `CatalogViews.SingleMatchUnderUniqueCodes` | catalog/views.py:47-50 | with unique codes, a unit's code matches that unit alone |
| `CatalogViews.LookupRoundTrip` | catalog/views.py:44-52 | with unique codes, looking up a unit's routable code yields exactly that unit |
| `CatalogViews.LookupNeverAmbiguous` | catalog/views.py:47-50 | with unique codes, the lookup never finds several rows |
| `CatalogViews.ApplyPatch` | catalog/views.py:73-74 | each field present in the validated data overwrites the unit's; absent fields, the id and the access code are kept |
| `CatalogViews.PerformUpdate` | catalog/views.py:69-74 | an authenticated requester becomes owner when no owner is sent; a sent owner, including null, is saved as given; an anonymous update saves the data unchanged |
| `CatalogViews.UpdateOwnerSources` | catalog/views.py:69-74 | the owner after an update is the one sent, the requester, or, for an anonymous update without an owner, the unit's previous owner |
| `CatalogViews.PerformUpdateIdempotent` | catalog/views.py:69-74 | repeating the same update changes nothing further |
| `CatalogViews.UpdateOverwritesOwner` | catalog/views.py:69-72 | the current owner is not checked: an authenticated update without an owner takes the unit from its owner |

## Left out

- The size-template, unit and size-inventory reconciliation: the models it uses (`ApparelUnit`, `CollectionSizeTemplate`, `ApparelItemSizeInventory`) are not part of this model. `CatalogViews.Unit` carries only the fields the views touch.
- Serializer field lists, read-only representations, admin, URL routing other than the lookup pattern, app configuration, migrations.
- `accounts/views.py`: it imports a serializer that does not exist; the views that drive the flows are not part of this model.
- Password validation (`validate_password`) and password hashing: the stored password is the given string.
- Email syntax (`EmailField`), URL syntax (`URLField`), whitespace trimming of text fields, email and username normalisation by the user manager.
- Row locking (`select_for_update`), transactions and concurrency; each flow is one atomic step.
- The registration QR code serializer, profile URL building and image fields.
- AccountModels.GenerateProfileSlug: `User.save` draws UUIDs until a free slug appears; the model draws from a finite candidate sequence and reports exhaustion (`SlugCandidatesExhausted` in `CreateUser`).
- AccountModels.MarkClaimed: the in-memory save also fills an unset expiry, but only the claim columns are written; the model keeps the stored row, and stored tokens always have an expiry (`AccountFlows.Valid`).
- AccountFlows.RequestRegistrationToken: a token's item ids are a set, since the stored list is only ever used as a membership filter. The framework reports the field errors of the email, the ids and the order reference together; the model reports one, checking the ids first.
- CatalogModels.FullClean: a missing (null) or non-integer edition size or remaining quantity makes the comparison in `clean` raise a type error instead of a validation error; both columns are integers here, so that crash is not represented.
- CatalogViews.LookupRoundTrip: the uniqueness of access codes (`UniqueCodes`) is assumed of the unit model, whose definition is not part of this model.
- AccountFlows.GetUser: the request field rejects a blank identifier, or one containing a NUL character, before the query runs; `GetUser` is the query alone and matches a blank identifier against blank emails.
- AccountFlows.CreateRegistrationToken: the 255-character limit on the order reference (accounts/models.py:73-74) and the 254-character default limit of the email column (accounts/models.py:67) have no request-field counterpart and are enforced only by the database; the model stores any length.
- AccountFlows.CreateUser: the 32-character limit on the recovery phone (accounts/models.py:27-28) and the 254-character default limit of the recovery email column (accounts/models.py:23-26) have no request-field counterpart and are enforced only by the database; the model stores any length.
- CatalogModels.FieldErrors: the `modifications` and `acquired_at` columns have no checks and are not modelled. The upper bound 2147483647 on positive integer columns and the 200-character limit on the product URL are the web framework's defaults, not values written in the item model.

=== FILE: account_flows.dfy ===
/**
 * The account flows built on the records of `AccountModels`: creating a
 * registration token for unowned items, claiming it (which creates the user
 * and hands the items over), and requesting and confirming account recovery.
 *
 * The database is a `Store` of maps keyed by primary key or token value.
 * Token values (UUIDs in the system) are supplied by the caller; a value
 * already in use is the unique-constraint violation the database reports.
 */
module AccountFlows {
  import opened Outcomes
  import opened Identifiers
  import opened AccountModels

  /** The value printed in a token's QR code or link. */
  type TokenValue = nat

  datatype Store = Store(
    users: map<UserId, User>,
    nextUserId: UserId,                       // the user table's id sequence
    owners: map<ItemId, Option<UserId>>,      // the owner column of each apparel item
    registrations: map<TokenValue, RegistrationToken>,
    recoveries: map<TokenValue, RecoveryToken>)

  datatype AccountError =
    | EmptyItemList            // the item id list may not be empty
    | ItemClaimed              // an id is not an existing, unowned item
    | InvalidToken             // missing, claimed, used or expired token
    | InvalidFields            // field validation failed (see RegistrationFieldsOk,
                               // ClaimFieldsOk, IsRequiredText)
    | UsernameTaken            // the user table's unique username constraint
    | TokenValueTaken          // the token table's unique token constraint
    | SlugCandidatesExhausted  // the random source ran out (see SaveUser)

  const UsernameMinLength: nat := 3
  const UsernameMaxLength: nat := 150

  /** A text request field may never contain a NUL character. */
  predicate NoNul(v: string) {
    '\0' !in v
  }

  /** A required text request field: not blank and without NUL characters. */
  predicate IsRequiredText(v: string) {
    v != "" && NoNul(v)
  }

  /** The field validation of a claim request: a username of 3 to 150
      characters, a non-blank password, and no NUL character in any of the
      text fields, including the optional recovery contacts. */
  predicate ClaimFieldsOk(username: string, password: string,
                          recoveryEmail: Option<string>, recoveryPhone: Option<string>) {
    && UsernameMinLength <= |username| <= UsernameMaxLength
    && NoNul(username)
    && IsRequiredText(password)
    && (recoveryEmail.Some? ==> NoNul(recoveryEmail.value))
    && (recoveryPhone.Some? ==> NoNul(recoveryPhone.value))
  }

  /** What the database's keys, foreign keys and unique constraints guarantee,
      together with what the `save` hooks establish for every stored row: a
      non-blank profile slug and a set token expiry. */
  ghost predicate Valid(s: Store) {
    && (forall u | u in s.users :: u < s.nextUserId)
    && (forall u, v | u in s.users && v in s.users && s.users[u].username == s.users[v].username :: u == v)
    && (forall u, v | u in s.users && v in s.users && s.users[u].profileSlug == s.users[v].profileSlug :: u == v)
    && (forall u | u in s.users :: s.users[u].profileSlug != "")
    && (forall i | i in s.owners && s.owners[i].Some? :: s.owners[i].value in s.users)
    && (forall k | k in s.registrations ::
          s.registrations[k].expiresAt.Some?
          && (s.registrations[k].claimedUser.Some? ==> s.registrations[k].claimedUser.value in s.users))
    && (forall k | k in s.recoveries ::
          s.recoveries[k].expiresAt.Some? && s.recoveries[k].user in s.users)
  }

  function ProfileSlugs(users: map<UserId, User>): set<string> {
    set u | u in users :: users[u].profileSlug
  }

  // ---------------------------------------------------------------------
  // Registration token creation
  // ---------------------------------------------------------------------

  /** An optional text field omitted from the request is stored as the
      column's blank default. */
  function BlankIfOmitted(field: Option<string>): string {
    if field.Some? then field.value else ""
  }

  /** The distinct ids of a request's id list. */
  function IdSet(ids: seq<ItemId>): set<ItemId> {
    set i | i in ids
  }

  /**
   * Validation of the requested item ids: the list must be non-empty and
   * every id must name an existing item that has no owner. The validated
   * value is the set of ids the database query found.
   */
  function ValidateItemIds(owners: map<ItemId, Option<UserId>>, ids: seq<ItemId>): (r: Result<set<ItemId>, AccountError>)
    ensures r.Ok? <==> |ids| > 0 && forall k :: 0 <= k < |ids| ==> ids[k] in owners && owners[ids[k]].None?
    ensures r.Ok? ==> r.value == IdSet(ids)
    ensures r.Ok? ==> forall i :: i in r.value ==> i in owners && owners[i].None?
    ensures r.Err? ==> r.error == (if |ids| == 0 then EmptyItemList else ItemClaimed)
  {
    if |ids| == 0 then Err(EmptyItemList)
    else
      var found := set i | i in ids && i in owners && owners[i].None?;
      var missing := IdSet(ids) - found;
      if missing != {} then Err(ItemClaimed)
      else
        assert forall k :: 0 <= k < |ids| ==> ids[k] in IdSet(ids) && ids[k] !in missing;
        assert found == IdSet(ids);
        Ok(found)
  }

  /** `create_token`: insert a token carrying the email and item ids; the
      order reference defaults to the empty string. */
  function CreateRegistrationToken(
    s: Store, value: TokenValue, email: string, itemIds: set<ItemId>,
    orderReference: Option<string>, now: Timestamp): (r: Result<Store, AccountError>)
    ensures r.Err? <==> value in s.registrations
    ensures r.Err? ==> r.error == TokenValueTaken
    ensures r.Ok? ==>
              && r.value == s.(registrations := r.value.registrations)
              && r.value.registrations.Keys == s.registrations.Keys + {value}
              && (forall k | k in s.registrations :: r.value.registrations[k] == s.registrations[k])
    ensures r.Ok? ==>
              var t := r.value.registrations[value];
              && t.email == email
              && t.itemIds == itemIds
              && t.orderReference == (if orderReference.Some? then orderReference.value else "")
              && t.createdAt == now
              && t.expiresAt == Some(now + RegistrationLifetime)
              && t.claimedAt.None? && t.claimedUser.None?
              && IsRegistrationActive(t, now)
  {
    if value in s.registrations then Err(TokenValueTaken)
    else
      var t := SaveRegistration(
        RegistrationToken(email, itemIds, BlankIfOmitted(orderReference), now, None, None, None), now);
      Ok(s.(registrations := s.registrations[value := t]))
  }

  /** The field validation of a token-creation request beyond the ids: a
      non-blank email and no NUL character in the email or order reference. */
  predicate RegistrationFieldsOk(email: string, orderReference: Option<string>) {
    IsRequiredText(email) && (orderReference.Some? ==> NoNul(orderReference.value))
  }

  /** The token-creation request: validate the ids and the other fields, then
      create the token. */
  function RequestRegistrationToken(
    s: Store, value: TokenValue, email: string, ids: seq<ItemId>,
    orderReference: Option<string>, now: Timestamp): (r: Result<Store, AccountError>)
    ensures r.Ok? ==> |ids| > 0 && forall k :: 0 <= k < |ids| ==> ids[k] in s.owners && s.owners[ids[k]].None?
    ensures r.Ok? ==> value !in s.registrations && value in r.value.registrations
    ensures r.Ok? ==> forall i :: i in r.value.registrations[value].itemIds <==> i in ids
    ensures r.Ok? ==> r.value.owners == s.owners && r.value.users == s.users
    ensures r.Ok? ==> RegistrationFieldsOk(email, orderReference)
    ensures |ids| > 0 && (forall k :: 0 <= k < |ids| ==> ids[k] in s.owners && s.owners[ids[k]].None?)
            ==> r == if RegistrationFieldsOk(email, orderReference)
                     then CreateRegistrationToken(s, value, email, IdSet(ids), orderReference, now)
                     else Err(InvalidFields)
    ensures |ids| == 0 ==> r == Err(EmptyItemList)
    ensures (exists k :: 0 <= k < |ids| && (ids[k] !in s.owners || s.owners[ids[k]].Some?)) ==> r == Err(ItemClaimed)
  {
    match ValidateItemIds(s.owners, ids)
    case Err(e) => Err(e)
    case Ok(itemIds) =>
      if !RegistrationFieldsOk(email, orderReference) then Err(InvalidFields)
      else CreateRegistrationToken(s, value, email, itemIds, orderReference, now)
  }

  // ---------------------------------------------------------------------
  // Registration claim
  // ---------------------------------------------------------------------

  /** Claim validation: the token must exist and be active. */
  function ValidateClaim(s: Store, value: TokenValue, now: Timestamp): (r: Result<RegistrationToken, AccountError>)
    ensures r.Ok? <==> value in s.registrations && IsRegistrationActive(s.registrations[value], now)
    ensures r.Ok? ==> r.value == s.registrations[value]
    ensures r.Err? ==> r.error == InvalidToken
  {
    if value !in s.registrations then Err(InvalidToken)
    else if !IsRegistrationActive(s.registrations[value], now) then Err(InvalidToken)
    else Ok(s.registrations[value])
  }

  function HandOver(owners: map<ItemId, Option<UserId>>, ids: set<ItemId>, user: UserId): map<ItemId, Option<UserId>> {
    map i | i in owners :: if i in ids then Some(user) else owners[i]
  }

  /**
   * `create_user`: create the user with the token's email, make the new user
   * the owner of every existing item the token names, and mark the token
   * claimed. Ownership is not re-checked here, so an item that was given to
   * someone else since the token was created changes hands.
   */
  function CreateUser(
    s: Store, value: TokenValue, username: string, password: string,
    recoveryEmail: Option<string>, recoveryPhone: Option<string>,
    now: Timestamp, candidates: seq<string>): (r: Result<(Store, UserId), AccountError>)
    requires Valid(s)
    requires value in s.registrations
    requires AllUuidHex(candidates)
    ensures r.Err? ==> r.error in {SlugCandidatesExhausted, UsernameTaken}
    ensures r.Err? && r.error == UsernameTaken ==> exists u :: u in s.users && s.users[u].username == username
    ensures r == Err(SlugCandidatesExhausted)
            <==> forall k :: 0 <= k < |candidates| ==> SlugOf(candidates[k]) in ProfileSlugs(s.users)
    ensures (forall u | u in s.users :: s.users[u].username != username)
            && (exists k :: 0 <= k < |candidates| && SlugOf(candidates[k]) !in ProfileSlugs(s.users))
            ==> r.Ok?
    ensures r.Ok? ==> forall u :: u in s.users ==> s.users[u].username != username
    ensures r.Ok? ==>
              var (s', uid) := r.value;
              var t := s.registrations[value];
              && uid == s.nextUserId && s'.nextUserId == uid + 1
              && s'.users.Keys == s.users.Keys + {uid}
              && (forall u | u in s.users :: s'.users[u] == s.users[u])
              && s'.users[uid].username == username
              && s'.users[uid].password == password
              && s'.users[uid].email == t.email
              && s'.users[uid].recoveryEmail == BlankIfOmitted(recoveryEmail)
              && s'.users[uid].recoveryPhone == BlankIfOmitted(recoveryPhone)
              && s'.users[uid].profileSlug !in ProfileSlugs(s.users)
              && s'.owners.Keys == s.owners.Keys
              && (forall i | i in s.owners && i in t.itemIds :: s'.owners[i] == Some(uid))
              && (forall i | i in s.owners && i !in t.itemIds :: s'.owners[i] == s.owners[i])
              && s'.registrations == s.registrations[value := MarkClaimed(t, uid, now)]
              && s'.recoveries == s.recoveries
  {
    var t := s.registrations[value];
    var created := User(username, password, t.email, BlankIfOmitted(recoveryEmail), BlankIfOmitted(recoveryPhone), "");
    match SaveUser(created, ProfileSlugs(s.users), candidates)
    case None => Err(SlugCandidatesExhausted)
    case Some(user) =>
      if exists u :: u in s.users && s.users[u].username == username then Err(UsernameTaken)
      else
        var uid := s.nextUserId;
        Ok((Store(
              s.users[uid := user],
              uid + 1,
              HandOver(s.owners, t.itemIds, uid),
              s.registrations[value := MarkClaimed(t, uid, now)],
              s.recoveries),
            uid))
  }

  /** The claim request: field validation, then the token validation, then
      `create_user`. */
  function Claim(
    s: Store, value: TokenValue, username: string, password: string,
    recoveryEmail: Option<string>, recoveryPhone: Option<string>,
    now: Timestamp, candidates: seq<string>): (r: Result<(Store, UserId), AccountError>)
    requires Valid(s)
    requires AllUuidHex(candidates)
    ensures !ClaimFieldsOk(username, password, recoveryEmail, recoveryPhone) ==> r == Err(InvalidFields)
    ensures ClaimFieldsOk(username, password, recoveryEmail, recoveryPhone)
            && (value !in s.registrations || !IsRegistrationActive(s.registrations[value], now))
            ==> r == Err(InvalidToken)
    ensures r.Ok? ==> value in s.registrations && IsRegistrationActive(s.registrations[value], now)
    ensures ClaimFieldsOk(username, password, recoveryEmail, recoveryPhone)
            && value in s.registrations && IsRegistrationActive(s.registrations[value], now)
            ==> r == CreateUser(s, value, username, password, recoveryEmail, recoveryPhone, now, candidates)
    ensures r.Ok? ==> r == CreateUser(s, value, username, password, recoveryEmail, recoveryPhone, now, candidates)
  {
    if !ClaimFieldsOk(username, password, recoveryEmail, recoveryPhone) then Err(InvalidFields)
    else
      match ValidateClaim(s, value, now)
      case Err(e) => Err(e)
      case Ok(_) => CreateUser(s, value, username, password, recoveryEmail, recoveryPhone, now, candidates)
  }

  /** A token claims at most one account: after a successful claim, every
      later claim with the same token value is rejected as invalid. */
  lemma NoDoubleClaim(
    s: Store, value: TokenValue, username: string, password: string,
    recoveryEmail: Option<string>, recoveryPhone: Option<string>,
    now: Timestamp, candidates: seq<string>,
    username2: string, password2: string,
    recoveryEmail2: Option<string>, recoveryPhone2: Option<string>,
    later: Timestamp, candidates2: seq<string>)
    requires Valid(s)
    requires AllUuidHex(candidates) && AllUuidHex(candidates2)
    requires Claim(s, value, username, password, recoveryEmail, recoveryPhone, now, candidates).Ok?
    ensures
      var s' := Claim(s, value, username, password, recoveryEmail, recoveryPhone, now, candidates).value.0;
      Valid(s') &&
      Claim(s', value, username2, password2, recoveryEmail2, recoveryPhone2, later, candidates2).Err? &&
      (ClaimFieldsOk(username2, password2, recoveryEmail2, recoveryPhone2) ==>
         Claim(s', value, username2, password2, recoveryEmail2, recoveryPhone2, later, candidates2) == Err(InvalidToken))
  {
    var (s', uid) := Claim(s, value, username, password, recoveryEmail, recoveryPhone, now, candidates).value;
    ClaimPreservesValid(s, value, username, password, recoveryEmail, recoveryPhone, now, candidates);
    assert s'.registrations[value] == MarkClaimed(s.registrations[value], uid, now);
    assert !IsRegistrationActive(s'.registrations[value], later);
  }

  // ---------------------------------------------------------------------
  // Account recovery
  // ---------------------------------------------------------------------

  predicate Identifies(user: User, identifier: string) {
    user.username == identifier || user.email == identifier
  }

  /**
   * `get_user`: the user whose username or email equals the identifier; when
   * several match, the one with the smallest id (the first by primary key).
   */
  method GetUser(users: map<UserId, User>, identifier: string) returns (r: Option<UserId>)
    ensures r.None? <==> forall u :: u in users ==> !Identifies(users[u], identifier)
    ensures r.Some? ==> r.value in users && Identifies(users[r.value], identifier)
    ensures r.Some? ==> forall u :: u in users && Identifies(users[u], identifier) ==> r.value <= u
  {
    r := None;
    var pending := users.Keys;
    while pending != {}
      invariant pending <= users.Keys
      invariant r.None? ==> forall u :: u in users && u !in pending ==> !Identifies(users[u], identifier)
      invariant r.Some? ==> r.value in users && Identifies(users[r.value], identifier)
      invariant r.Some? ==> forall u :: u in users && u !in pending && Identifies(users[u], identifier) ==> r.value <= u
      decreases pending
    {
      var u :| u in pending;
      if Identifies(users[u], identifier) && (r.None? || u < r.value) {
        r := Some(u);
      }
      pending := pending - {u};
    }
  }

  /** Insert a recovery token for `user`, expiring one hour from `now`. */
  function CreateRecoveryToken(s: Store, value: TokenValue, user: UserId, now: Timestamp): (r: Result<Store, AccountError>)
    requires user in s.users
    ensures r.Err? <==> value in s.recoveries
    ensures r.Err? ==> r.error == TokenValueTaken
    ensures r.Ok? ==>
              && r.value == s.(recoveries := r.value.recoveries)
              && r.value.recoveries == s.recoveries[value := RecoveryToken(user, now, Some(now + RecoveryLifetime), None)]
              && IsRecoveryActive(r.value.recoveries[value], now)
  {
    if value in s.recoveries then Err(TokenValueTaken)
    else Ok(s.(recoveries := s.recoveries[value := SaveRecovery(RecoveryToken(user, now, None, None), now)]))
  }

  /** Recovery confirmation: the token must exist and be active. */
  function ValidateRecovery(s: Store, value: TokenValue, now: Timestamp): (r: Result<RecoveryToken, AccountError>)
    ensures r.Ok? <==> value in s.recoveries && IsRecoveryActive(s.recoveries[value], now)
    ensures r.Ok? ==> r.value == s.recoveries[value]
    ensures r.Err? ==> r.error == InvalidToken
  {
    if value !in s.recoveries then Err(InvalidToken)
    else if !IsRecoveryActive(s.recoveries[value], now) then Err(InvalidToken)
    else Ok(s.recoveries[value])
  }

  /** `update_password`: change the token user's password, and nothing else
      about any user, then mark the token used. */
  function UpdatePassword(s: Store, value: TokenValue, newPassword: string, now: Timestamp): (r: (Store, UserId))
    requires value in s.recoveries && s.recoveries[value].user in s.users
    ensures r.1 == s.recoveries[value].user
    ensures r.0.users.Keys == s.users.Keys
    ensures r.0.users[r.1] == s.users[r.1].(password := newPassword)
    ensures forall u | u in s.users && u != r.1 :: r.0.users[u] == s.users[u]
    ensures r.0.recoveries == s.recoveries[value := MarkUsed(s.recoveries[value], now)]
    ensures r.0.owners == s.owners && r.0.registrations == s.registrations && r.0.nextUserId == s.nextUserId
  {
    var t := s.recoveries[value];
    var uid := t.user;
    (s.(users := s.users[uid := s.users[uid].(password := newPassword)],
        recoveries := s.recoveries[value := MarkUsed(t, now)]),
     uid)
  }

  /** The confirm request: the new password must be non-blank text without
      NUL characters; then validate the token and update the password. */
  function ConfirmRecovery(s: Store, value: TokenValue, newPassword: string, now: Timestamp): (r: Result<(Store, UserId), AccountError>)
    requires Valid(s)
    ensures !IsRequiredText(newPassword) ==> r == Err(InvalidFields)
    ensures r.Ok? <==> IsRequiredText(newPassword) && value in s.recoveries && IsRecoveryActive(s.recoveries[value], now)
    ensures IsRequiredText(newPassword) && r.Err? ==> r.error == InvalidToken
    ensures r.Ok? ==> r.value == UpdatePassword(s, value, newPassword, now)
  {
    if !IsRequiredText(newPassword) then Err(InvalidFields)
    else
    match ValidateRecovery(s, value, now)
    case Err(e) => Err(e)
    case Ok(_) => Ok(UpdatePassword(s, value, newPassword, now))
  }

  /** A recovery token resets the password at most once. */
  lemma NoDoubleRecovery(s: Store, value: TokenValue, p1: string, now: Timestamp, p2: string, later: Timestamp)
    requires Valid(s)
    requires ConfirmRecovery(s, value, p1, now).Ok?
    ensures Valid(ConfirmRecovery(s, value, p1, now).value.0)
    ensures ConfirmRecovery(ConfirmRecovery(s, value, p1, now).value.0, value, p2, later).Err?
    ensures IsRequiredText(p2) ==> ConfirmRecovery(ConfirmRecovery(s, value, p1, now).value.0, value, p2, later) == Err(InvalidToken)
  {
    var s' := ConfirmRecovery(s, value, p1, now).value.0;
    ConfirmPreservesValid(s, value, p1, now);
    assert !IsRecoveryActive(s'.recoveries[value], later);
  }

  // ---------------------------------------------------------------------
  // The store invariant is preserved by every flow
  // ---------------------------------------------------------------------

  lemma RequestPreservesValid(
    s: Store, value: TokenValue, email: string, ids: seq<ItemId>,
    orderReference: Option<string>, now: Timestamp)
    requires Valid(s)
    requires RequestRegistrationToken(s, value, email, ids, orderReference, now).Ok?
    ensures Valid(RequestRegistrationToken(s, value, email, ids, orderReference, now).value)
  {
  }

  lemma ClaimPreservesValid(
    s: Store, value: TokenValue, username: string, password: string,
    recoveryEmail: Option<string>, recoveryPhone: Option<string>,
    now: Timestamp, candidates: seq<string>)
    requires Valid(s)
    requires AllUuidHex(candidates)
    requires Claim(s, value, username, password, recoveryEmail, recoveryPhone, now, candidates).Ok?
    ensures Valid(Claim(s, value, username, password, recoveryEmail, recoveryPhone, now, candidates).value.0)
  {
    var (s', uid) := Claim(s, value, username, password, recoveryEmail, recoveryPhone, now, candidates).value;
    forall u | u in s.users
      ensures s.users[u].profileSlug != s'.users[uid].profileSlug
    {
      assert s.users[u].profileSlug in ProfileSlugs(s.users);
    }
  }

  lemma RecoveryRequestPreservesValid(s: Store, value: TokenValue, user: UserId, now: Timestamp)
    requires Valid(s)
    requires user in s.users
    requires CreateRecoveryToken(s, value, user, now).Ok?
    ensures Valid(CreateRecoveryToken(s, value, user, now).value)
  {
  }

  lemma ConfirmPreservesValid(s: Store, value: TokenValue, newPassword: string, now: Timestamp)
    requires Valid(s)
    requires ConfirmRecovery(s, value, newPassword, now).Ok?
    ensures Valid(ConfirmRecovery(s, value, newPassword, now).value.0)
  {
  }
}

=== FILE: account_models.dfy ===
/**
 * The account records: users with their public profile slug, one-time
 * registration tokens and single-use account recovery tokens.
 *
 * Time is an integer number of seconds; the current time is always passed
 * in explicitly as `now`.
 */
module AccountModels {
  import opened Outcomes
  import opened Identifiers

  type Timestamp = int

  /** A registration token lives seven days after its first save. */
  const RegistrationLifetime: int := 7 * 24 * 60 * 60
  /** A recovery token lives one hour after its first save. */
  const RecoveryLifetime: int := 60 * 60
  /** Generated profile slugs are the first twelve hex digits of a UUID4. */
  const ProfileSlugLength: nat := 12

  datatype User = User(
    username: string,
    password: string,
    email: string,
    recoveryEmail: string,
    recoveryPhone: string,
    profileSlug: string)

  // ---------------------------------------------------------------------
  // Profile slug generation
  // ---------------------------------------------------------------------

  predicate IsLowerHexDigit(c: char) {
    '0' <= c <= '9' || 'a' <= c <= 'f'
  }

  /** The `.hex` form of a UUID: 32 lower-case hexadecimal digits. */
  predicate IsUuidHex(s: string) {
    |s| == 32 && forall i :: 0 <= i < |s| ==> IsLowerHexDigit(s[i])
  }

  predicate AllUuidHex(candidates: seq<string>) {
    forall k :: 0 <= k < |candidates| ==> IsUuidHex(candidates[k])
  }

  /** The slug a UUID candidate yields: its first twelve hex digits. */
  function SlugOf(candidate: string): (slug: string)
    requires IsUuidHex(candidate)
    ensures |slug| == ProfileSlugLength
    ensures forall i :: 0 <= i < |slug| ==> IsLowerHexDigit(slug[i])
  {
    candidate[..ProfileSlugLength]
  }

  /** The index of the first candidate at or after `from` whose slug is not
      taken, or `|candidates|` when every remaining one is taken. */
  function FirstFreeCandidate(taken: set<string>, candidates: seq<string>, from: nat): (k: nat)
    requires AllUuidHex(candidates)
    requires from <= |candidates|
    ensures from <= k <= |candidates|
    ensures forall j :: from <= j < k ==> SlugOf(candidates[j]) in taken
    ensures k < |candidates| ==> SlugOf(candidates[k]) !in taken
    decreases |candidates| - from
  {
    if from == |candidates| then from
    else if SlugOf(candidates[from]) !in taken then from
    else FirstFreeCandidate(taken, candidates, from + 1)
  }

  /**
   * Draw UUID4 candidates until one yields a slug no existing user holds.
   * The random source is the finite sequence `candidates`; `None` means it
   * ran out before a free slug turned up (`User.save` keeps drawing).
   */
  function GenerateProfileSlug(taken: set<string>, candidates: seq<string>): (slug: Option<string>)
    requires AllUuidHex(candidates)
    ensures slug.Some? ==> slug.value !in taken && |slug.value| == ProfileSlugLength
    ensures slug.Some? ==> forall i :: 0 <= i < |slug.value| ==> IsLowerHexDigit(slug.value[i])
    ensures slug.Some? ==> exists k :: 0 <= k < |candidates| && slug.value == SlugOf(candidates[k])
    ensures slug.None? <==> forall k :: 0 <= k < |candidates| ==> SlugOf(candidates[k]) in taken
  {
    var k := FirstFreeCandidate(taken, candidates, 0);
    if k < |candidates| then Some(SlugOf(candidates[k])) else None
  }

  /**
   * `User.save`: a blank profile slug is replaced by a generated one that
   * no other user holds; a non-blank slug is kept as it is.
   */
  function SaveUser(user: User, taken: set<string>, candidates: seq<string>): (saved: Option<User>)
    requires AllUuidHex(candidates)
    ensures user.profileSlug != "" ==> saved == Some(user)
    ensures user.profileSlug == "" && saved.Some? ==>
              saved.value.profileSlug !in taken
              && |saved.value.profileSlug| == ProfileSlugLength
              && saved.value == user.(profileSlug := saved.value.profileSlug)
    ensures user.profileSlug == "" && saved.None? ==>
              forall k :: 0 <= k < |candidates| ==> SlugOf(candidates[k]) in taken
  {
    if user.profileSlug != "" then Some(user)
    else
      match GenerateProfileSlug(taken, candidates)
      case Some(slug) => Some(user.(profileSlug := slug))
      case None => None
  }

  // ---------------------------------------------------------------------
  // One-time registration tokens
  // ---------------------------------------------------------------------

  datatype RegistrationToken = RegistrationToken(
    email: string,
    itemIds: set<ItemId>,
    orderReference: string,
    createdAt: Timestamp,
    expiresAt: Option<Timestamp>,
    claimedAt: Option<Timestamp>,
    claimedUser: Option<UserId>)

  /** `save`: an unset expiry becomes seven days after `now`; a set one is kept. */
  function SaveRegistration(t: RegistrationToken, now: Timestamp): (saved: RegistrationToken)
    ensures saved.expiresAt.Some?
    ensures t.expiresAt.Some? ==> saved == t
    ensures t.expiresAt.None? ==> saved == t.(expiresAt := Some(now + RegistrationLifetime))
  {
    if t.expiresAt.None? then t.(expiresAt := Some(now + RegistrationLifetime)) else t
  }

  /** `is_active`: not claimed, and not past its expiry. */
  function IsRegistrationActive(t: RegistrationToken, now: Timestamp): (active: bool)
    ensures active ==> t.claimedAt.None?
    ensures t.claimedAt.None? && t.expiresAt.None? ==> active
    ensures t.claimedAt.None? && t.expiresAt.Some? ==> (active <==> now <= t.expiresAt.value)
  {
    if t.claimedAt.Some? then false
    else if t.expiresAt.Some? && t.expiresAt.value < now then false
    else true
  }

  /** `mark_claimed`: record the claiming user and the claim time. Only those
      two columns are written back, so nothing else about the token changes. */
  function MarkClaimed(t: RegistrationToken, user: UserId, now: Timestamp): (claimed: RegistrationToken)
    ensures claimed.claimedUser == Some(user)
    ensures claimed.claimedAt == Some(now)
    ensures claimed == t.(claimedUser := Some(user), claimedAt := Some(now))
    ensures forall later :: !IsRegistrationActive(claimed, later)
  {
    t.(claimedUser := Some(user), claimedAt := Some(now))
  }

  /** Saving twice is saving once: the second save finds the expiry set. */
  lemma SaveRegistrationIdempotent(t: RegistrationToken, now: Timestamp, later: Timestamp)
    ensures SaveRegistration(SaveRegistration(t, now), later) == SaveRegistration(t, now)
  {
  }

  /** Once inactive, a registration token stays inactive as time goes on. */
  lemma RegistrationInactiveStaysInactive(t: RegistrationToken, now: Timestamp, later: Timestamp)
    requires !IsRegistrationActive(t, now)
    requires now <= later
    ensures !IsRegistrationActive(t, later)
  {
  }

  /** A newly saved, unclaimed token without an expiry is active exactly up to
      and including the instant seven days after the save. */
  lemma FreshRegistrationLifetime(t: RegistrationToken, savedAt: Timestamp, now: Timestamp)
    requires t.claimedAt.None? && t.expiresAt.None?
    ensures IsRegistrationActive(SaveRegistration(t, savedAt), now)
            <==> now <= savedAt + RegistrationLifetime
  {
  }

  // ---------------------------------------------------------------------
  // Account recovery tokens
  // ---------------------------------------------------------------------

  datatype RecoveryToken = RecoveryToken(
    user: UserId,
    createdAt: Timestamp,
    expiresAt: Option<Timestamp>,
    usedAt: Option<Timestamp>)

  /** `save`: an unset expiry becomes one hour after `now`; a set one is kept. */
  function SaveRecovery(t: RecoveryToken, now: Timestamp): (saved: RecoveryToken)
    ensures saved.expiresAt.Some?
    ensures t.expiresAt.Some? ==> saved == t
    ensures t.expiresAt.None? ==> saved == t.(expiresAt := Some(now + RecoveryLifetime))
  {
    if t.expiresAt.None? then t.(expiresAt := Some(now + RecoveryLifetime)) else t
  }

  /** `is_active`: not used, and not past its expiry. */
  function IsRecoveryActive(t: RecoveryToken, now: Timestamp): (active: bool)
    ensures active ==> t.usedAt.None?
    ensures t.usedAt.None? && t.expiresAt.None? ==> active
    ensures t.usedAt.None? && t.expiresAt.Some? ==> (active <==> now <= t.expiresAt.value)
  {
    if t.usedAt.Some? then false
    else if t.expiresAt.Some? && t.expiresAt.value < now then false
    else true
  }

  /** `mark_used`: record the use time; only that column is written back. */
  function MarkUsed(t: RecoveryToken, now: Timestamp): (used: RecoveryToken)
    ensures used == t.(usedAt := Some(now))
    ensures forall later :: !IsRecoveryActive(used, later)
  {
    t.(usedAt := Some(now))
  }

  lemma SaveRecoveryIdempotent(t: RecoveryToken, now: Timestamp, later: Timestamp)
    ensures SaveRecovery(SaveRecovery(t, now), later) == SaveRecovery(t, now)
  {
  }

  lemma RecoveryInactiveStaysInactive(t: RecoveryToken, now: Timestamp, later: Timestamp)
    requires !IsRecoveryActive(t, now)
    requires now <= later
    ensures !IsRecoveryActive(t, later)
  {
  }

  lemma FreshRecoveryLifetime(t: RecoveryToken, savedAt: Timestamp, now: Timestamp)
    requires t.usedAt.None? && t.expiresAt.None?
    ensures IsRecoveryActive(SaveRecovery(t, savedAt), now)
            <==> now <= savedAt + RecoveryLifetime
  {
  }
}

=== FILE: catalog_models.dfy ===
/**
 * The single-row apparel item record and its save-time validation: field
 * checks, the "remaining never exceeds the edition" rule of `clean`, and the
 * slug uniqueness checks, all run before every save.
 */
module CatalogModels {
  import opened Outcomes
  import opened Identifiers

  type CollectionId = nat

  datatype Rarity = Common | Rare | Epic | Legendary
  datatype Size = XS | S | M | L | XL | XXL

  /** The stored value of each rarity choice; `ParseRarity` inverts it. */
  function RarityValue(r: Rarity): string {
    match r
    case Common => "common"
    case Rare => "rare"
    case Epic => "epic"
    case Legendary => "legendary"
  }

  /** The rarity a stored value names, if it is one of the choices. */
  function ParseRarity(v: string): (r: Option<Rarity>)
    ensures r.Some? ==> v == RarityValue(r.value)
    ensures r.None? ==> forall x :: RarityValue(x) != v
  {
    if v == "common" then Some(Common)
    else if v == "rare" then Some(Rare)
    else if v == "epic" then Some(Epic)
    else if v == "legendary" then Some(Legendary)
    else None
  }

  /** A new item's rarity when none is given. */
  const DefaultRarity: string := "common"

  function SizeValue(z: Size): string {
    match z
    case XS => "XS"
    case S => "S"
    case M => "M"
    case L => "L"
    case XL => "XL"
    case XXL => "XXL"
  }

  /** The size a stored value names, if it is one of the choices. */
  function ParseSize(v: string): (z: Option<Size>)
    ensures z.Some? ==> v == SizeValue(z.value) && 0 < |v| <= SizeMaxLength
    ensures z.None? ==> forall x :: SizeValue(x) != v
  {
    if v == "XS" then Some(XS)
    else if v == "S" then Some(S)
    else if v == "M" then Some(M)
    else if v == "L" then Some(L)
    else if v == "XL" then Some(XL)
    else if v == "XXL" then Some(XXL)
    else None
  }

  /** The largest value a positive integer column accepts. */
  const MaxPositiveInteger: int := 2147483647
  const NameMaxLength: nat := 255
  const SlugMaxLength: nat := 255
  const SizeMaxLength: nat := 3
  const UrlMaxLength: nat := 200

  datatype ApparelItem = ApparelItem(
    name: string,
    slug: string,
    collection: CollectionId,
    rarity: string,
    editionSize: int,
    size: string,
    productUrl: string,
    owner: Option<UserId>,
    quantityRemaining: int)

  /** A new item as the constructor builds it, rarity defaulted. */
  function NewItem(
    name: string, slug: string, collection: CollectionId, editionSize: int, size: string,
    productUrl: string, owner: Option<UserId>, quantityRemaining: int): (item: ApparelItem)
    ensures ParseRarity(item.rarity) == Some(Common)
  {
    ApparelItem(name, slug, collection, DefaultRarity, editionSize, size, productUrl, owner, quantityRemaining)
  }

  datatype Field =
    | NameField | SlugField | CollectionField | RarityField | EditionSizeField
    | SizeField | ProductUrlField | OwnerField | QuantityRemainingField

  datatype ItemError =
    | InvalidField(field: Field)
    | RemainingExceedsEdition      // raised by `clean`
    | SlugTaken                    // another item has this slug
    | CollectionSlugTaken          // another item of the collection has this slug

  /** The database tables the item validation consults. */
  datatype Catalog = Catalog(
    collections: set<CollectionId>,
    users: set<UserId>,
    items: map<ItemId, ApparelItem>)

  predicate IsSlugChar(c: char) {
    'a' <= c <= 'z' || 'A' <= c <= 'Z' || '0' <= c <= '9' || c == '-' || c == '_'
  }

  predicate IsSlug(s: string) {
    |s| > 0 && forall i :: 0 <= i < |s| ==> IsSlugChar(s[i])
  }

  predicate InPositiveRange(n: int) {
    0 <= n <= MaxPositiveInteger
  }

  const AllFields: set<Field> := {
    NameField, SlugField, CollectionField, RarityField, EditionSizeField,
    SizeField, ProductUrlField, OwnerField, QuantityRemainingField
  }

  /** Whether one field passes its own checks: length limits, blank values,
      the choice lists, the column range and the foreign keys. */
  predicate FieldOk(c: Catalog, item: ApparelItem, f: Field) {
    match f
    case NameField => 0 < |item.name| <= NameMaxLength
    case SlugField => IsSlug(item.slug) && |item.slug| <= SlugMaxLength
    case CollectionField => item.collection in c.collections
    case RarityField => ParseRarity(item.rarity).Some?
    case EditionSizeField => InPositiveRange(item.editionSize)
    case SizeField => ParseSize(item.size).Some?
    case ProductUrlField => 0 < |item.productUrl| <= UrlMaxLength
    case OwnerField => item.owner.Some? && item.owner.value in c.users
    case QuantityRemainingField => InPositiveRange(item.quantityRemaining)
  }

  /** The field-level checks (`clean_fields`): the fields that fail. */
  function FieldErrors(c: Catalog, item: ApparelItem): (bad: set<Field>)
    ensures NameField !in bad <==> 0 < |item.name| <= NameMaxLength
    ensures SlugField !in bad <==>
              0 < |item.slug| <= SlugMaxLength && forall i :: 0 <= i < |item.slug| ==> IsSlugChar(item.slug[i])
    ensures CollectionField !in bad <==> item.collection in c.collections
    ensures RarityField !in bad <==> exists r :: RarityValue(r) == item.rarity
    ensures EditionSizeField !in bad <==> 0 <= item.editionSize <= MaxPositiveInteger
    ensures SizeField !in bad <==> exists z :: SizeValue(z) == item.size
    ensures ProductUrlField !in bad <==> 0 < |item.productUrl| <= UrlMaxLength
    ensures OwnerField !in bad <==> item.owner.Some? && item.owner.value in c.users
    ensures QuantityRemainingField !in bad <==> 0 <= item.quantityRemaining <= MaxPositiveInteger
  {
    var bad := set f | f in AllFields && !FieldOk(c, item, f);
    assert forall f :: f in bad <==> !FieldOk(c, item, f);
    assert RarityField !in bad <==> ParseRarity(item.rarity).Some?;
    assert SizeField !in bad <==> ParseSize(item.size).Some?;
    bad
  }

  /** `clean`: the remaining quantity may not exceed the edition size. */
  function Clean(item: ApparelItem): (errors: set<ItemError>)
    ensures errors <= {RemainingExceedsEdition}
    ensures RemainingExceedsEdition in errors <==> item.quantityRemaining > item.editionSize
  {
    if item.quantityRemaining > item.editionSize then {RemainingExceedsEdition} else {}
  }

  /** The uniqueness checks (`validate_unique`) against the other stored
      items, skipped for fields that already failed. */
  function UniqueErrors(c: Catalog, id: ItemId, item: ApparelItem, failed: set<Field>): (errors: set<ItemError>)
    ensures errors <= {SlugTaken, CollectionSlugTaken}
    ensures SlugTaken in errors <==>
              SlugField !in failed
              && exists other :: other in c.items && other != id && c.items[other].slug == item.slug
    ensures CollectionSlugTaken in errors <==>
              SlugField !in failed && CollectionField !in failed
              && exists other :: other in c.items && other != id
                   && c.items[other].slug == item.slug && c.items[other].collection == item.collection
  {
    var slugClash := exists other :: other in c.items && other != id && c.items[other].slug == item.slug;
    var pairClash := exists other :: other in c.items && other != id
                       && c.items[other].slug == item.slug && c.items[other].collection == item.collection;
    (if SlugField !in failed && slugClash then {SlugTaken} else {})
    + (if SlugField !in failed && CollectionField !in failed && pairClash then {CollectionSlugTaken} else {})
  }

  /** `full_clean`: every error the item would be rejected with. */
  function FullClean(c: Catalog, id: ItemId, item: ApparelItem): (errors: set<ItemError>)
    ensures RemainingExceedsEdition in errors <==> item.quantityRemaining > item.editionSize
    ensures (forall f :: InvalidField(f) !in errors) <==> FieldErrors(c, item) == {}
    ensures errors == {} <==>
              && FieldErrors(c, item) == {}
              && item.quantityRemaining <= item.editionSize
              && forall o | o in c.items && o != id :: c.items[o].slug != item.slug
  {
    var failed := FieldErrors(c, item);
    (set f | f in failed :: InvalidField(f)) + Clean(item) + UniqueErrors(c, id, item, failed)
  }

  /** `save`: validate fully, and store the item only if nothing failed. */
  function Save(c: Catalog, id: ItemId, item: ApparelItem): (r: Result<Catalog, set<ItemError>>)
    ensures r.Ok? <==> FullClean(c, id, item) == {}
    ensures r.Err? ==> r.error == FullClean(c, id, item) && r.error != {}
    ensures r.Ok? ==> r.value == c.(items := c.items[id := item])
    ensures r.Ok? ==> 0 <= item.quantityRemaining <= item.editionSize <= MaxPositiveInteger
  {
    var errors := FullClean(c, id, item);
    if errors == {} then
      assert FieldErrors(c, item) == {};
      Ok(c.(items := c.items[id := item]))
    else Err(errors)
  }

  /** Every stored item passes the validation `save` runs. */
  ghost predicate Valid(c: Catalog) {
    forall id | id in c.items :: FullClean(c, id, c.items[id]) == {}
  }

  /** In a valid catalog no item has more remaining than its edition size,
      quantities are in the column range, the choices are closed, and slugs
      are unique. */
  lemma ValidCatalogFacts(c: Catalog)
    requires Valid(c)
    ensures forall id | id in c.items ::
              0 <= c.items[id].quantityRemaining <= c.items[id].editionSize <= MaxPositiveInteger
    ensures forall id | id in c.items ::
              ParseRarity(c.items[id].rarity).Some? && ParseSize(c.items[id].size).Some?
    ensures forall a, b | a in c.items && b in c.items && a != b :: c.items[a].slug != c.items[b].slug
  {
    forall id | id in c.items
      ensures 0 <= c.items[id].quantityRemaining <= c.items[id].editionSize <= MaxPositiveInteger
      ensures ParseRarity(c.items[id].rarity).Some? && ParseSize(c.items[id].size).Some?
    {
      var x := c.items[id];
      assert FullClean(c, id, x) == {};
      assert FieldErrors(c, x) == {};
      assert EditionSizeField !in FieldErrors(c, x) && QuantityRemainingField !in FieldErrors(c, x);
      assert RarityField !in FieldErrors(c, x) && SizeField !in FieldErrors(c, x);
    }
    forall a, b | a in c.items && b in c.items && a != b
      ensures c.items[a].slug != c.items[b].slug
    {
      assert FullClean(c, a, c.items[a]) == {};
      assert FieldErrors(c, c.items[a]) == {};
      assert SlugTaken !in UniqueErrors(c, a, c.items[a], {});
    }
  }

  /** Saving keeps every stored item valid, so no sequence of saves ever
      stores an item with more remaining than its edition size. */
  lemma {:induction false} SavePreservesValid(c: Catalog, id: ItemId, item: ApparelItem)
    requires Valid(c)
    requires Save(c, id, item).Ok?
    ensures Valid(Save(c, id, item).value)
  {
    var c' := Save(c, id, item).value;
    assert FullClean(c, id, item) == {};
    assert FieldErrors(c, item) == {};
    assert SlugTaken !in UniqueErrors(c, id, item, {});
    forall other | other in c'.items
      ensures FullClean(c', other, c'.items[other]) == {}
    {
      var x := c'.items[other];
      assert FieldErrors(c', x) == FieldErrors(c, x);
      if other == id {
        assert UniqueErrors(c', id, item, {}) == UniqueErrors(c, id, item, {});
      } else {
        assert x == c.items[other];
        assert FullClean(c, other, x) == {};
        assert FieldErrors(c, x) == {};
        assert x.slug != item.slug;
        assert SlugTaken !in UniqueErrors(c, other, x, {});
        assert UniqueErrors(c', other, x, {}) == {};
      }
    }
  }

  /** The boundary case: an item whose remaining quantity equals its edition
      size passes `clean`. */
  lemma CleanAcceptsFullEdition(item: ApparelItem)
    requires item.quantityRemaining == item.editionSize
    ensures Clean(item) == {}
  {
  }
}

=== FILE: catalog_views.dfy ===
/**
 * The two pieces of logic in the catalog API views: looking a unit up by its
 * access code, and the owner default applied when a unit is patched.
 */
module CatalogViews {
  import opened Outcomes
  import opened Identifiers
  import CatalogModels

  type UnitId = nat

  /** An individually numbered unit, reduced to the fields the views touch. */
  datatype Unit = Unit(
    id: UnitId,
    accessCode: string,
    size: CatalogModels.Size,
    owner: Option<UserId>)

  // ---------------------------------------------------------------------
  // Lookup by access code
  // ---------------------------------------------------------------------

  predicate IsAsciiAlphanumeric(c: char) {
    'A' <= c <= 'Z' || 'a' <= c <= 'z' || '0' <= c <= '9'
  }

  /** The lookup route only matches codes of one or more ASCII letters and digits. */
  predicate IsRoutableCode(code: string) {
    |code| > 0 && forall i :: 0 <= i < |code| ==> IsAsciiAlphanumeric(code[i])
  }

  /** At most one unit carries `code`. */
  predicate CodeHeldOnce(units: seq<Unit>, code: string) {
    forall j, k :: 0 <= j < |units| && 0 <= k < |units| && units[j].accessCode == code && units[k].accessCode == code ==> j == k
  }

  /** Two different units carry `code`. */
  predicate CodeRepeated(units: seq<Unit>, code: string) {
    exists j, k :: 0 <= j < k < |units| && units[j].accessCode == code && units[k].accessCode == code
  }

  /** The units whose access code equals `code`, in order: the rows the
      single-row query of the lookup sees. */
  function UnitsWithCode(units: seq<Unit>, code: string): (found: seq<Unit>)
    ensures |found| <= |units|
    ensures forall u :: u in found ==> u in units && u.accessCode == code
    ensures forall k :: 0 <= k < |units| && units[k].accessCode == code ==> units[k] in found
    ensures (forall k :: 0 <= k < |units| ==> units[k].accessCode != code) ==> found == []
    ensures CodeHeldOnce(units, code) ==> |found| <= 1
    ensures CodeRepeated(units, code) ==> |found| >= 2
  {
    if |units| == 0 then []
    else
      var rest := UnitsWithCode(units[1..], code);
      if units[0].accessCode == code then
        LaterMatchReachesRest(units, code, rest);
        [units[0]] + rest
      else
        RepeatSurvivesHead(units, code);
        rest
  }

  /** When the head carries `code`, uniqueness leaves nothing for the tail,
      and any later holder of `code` leaves something. */
  lemma LaterMatchReachesRest(units: seq<Unit>, code: string, rest: seq<Unit>)
    requires |units| > 0 && units[0].accessCode == code
    requires forall u :: u in rest ==> u in units[1..] && u.accessCode == code
    requires forall k :: 0 <= k < |units[1..]| && units[1..][k].accessCode == code ==> units[1..][k] in rest
    ensures CodeHeldOnce(units, code) ==> forall k :: 0 <= k < |units[1..]| ==> units[1..][k].accessCode != code
    ensures CodeRepeated(units, code) ==> rest != []
  {
    if CodeHeldOnce(units, code) {
      forall k | 0 <= k < |units[1..]|
        ensures units[1..][k].accessCode != code
      {
        assert units[1..][k] == units[k + 1];
      }
    }
    if CodeRepeated(units, code) {
      var j, k :| 0 <= j < k < |units| && units[j].accessCode == code && units[k].accessCode == code;
      assert units[1..][k - 1] == units[k];
    }
  }

  /** When the head does not carry `code`, a repeat lies wholly in the tail. */
  lemma RepeatSurvivesHead(units: seq<Unit>, code: string)
    requires |units| > 0 && units[0].accessCode != code
    ensures CodeHeldOnce(units, code) ==> CodeHeldOnce(units[1..], code)
    ensures CodeRepeated(units, code) ==> CodeRepeated(units[1..], code)
  {
    if CodeHeldOnce(units, code) {
      forall j, k | 0 <= j < |units[1..]| && 0 <= k < |units[1..]| &&
                    units[1..][j].accessCode == code && units[1..][k].accessCode == code
        ensures j == k
      {
        assert units[j + 1].accessCode == code && units[k + 1].accessCode == code;
      }
    }
    if CodeRepeated(units, code) {
      var j, k :| 0 <= j < k < |units| && units[j].accessCode == code && units[k].accessCode == code;
      assert units[1..][j - 1] == units[j] && units[1..][k - 1] == units[k];
    }
  }

  datatype LookupResult =
    | Found(unit: Unit)
    | NotFound        // 404: no route, or no unit has the code
    | MultipleFound   // the single-row query found several rows

  /** `lookup`: the unit whose access code equals `code`. */
  function Lookup(units: seq<Unit>, code: string): (r: LookupResult)
    ensures r.Found? ==> r.unit in units && r.unit.accessCode == code && IsRoutableCode(code)
    ensures r.NotFound? <==> !IsRoutableCode(code) || forall k :: 0 <= k < |units| ==> units[k].accessCode != code
    ensures r.MultipleFound? ==> IsRoutableCode(code)
    ensures r.Found? <==> IsRoutableCode(code) && |UnitsWithCode(units, code)| == 1
    ensures r.Found? ==> forall k :: 0 <= k < |units| && units[k].accessCode == code ==> units[k] == r.unit
    ensures r.MultipleFound? <==> IsRoutableCode(code) && CodeRepeated(units, code)
  {
    if !IsRoutableCode(code) then NotFound
    else
      var found := UnitsWithCode(units, code);
      if |found| == 0 then NotFound
      else if |found| == 1 then Found(found[0])
      else
        assert found[0] in found;
        MultipleFound
  }

  /** No two units share an access code. */
  ghost predicate UniqueCodes(units: seq<Unit>) {
    forall code :: CodeHeldOnce(units, code)
  }

  /** With unique codes, the filter on a unit's code yields exactly that unit. */
  lemma SingleMatchUnderUniqueCodes(units: seq<Unit>, i: nat)
    requires UniqueCodes(units)
    requires i < |units|
    ensures UnitsWithCode(units, units[i].accessCode) == [units[i]]
  {
  }

  /** With unique codes, every unit's (routable) code looks up exactly that unit. */
  lemma LookupRoundTrip(units: seq<Unit>, i: nat)
    requires UniqueCodes(units)
    requires i < |units|
    requires IsRoutableCode(units[i].accessCode)
    ensures Lookup(units, units[i].accessCode) == Found(units[i])
  {
    SingleMatchUnderUniqueCodes(units, i);
  }

  /** With unique codes the lookup never finds several rows. */
  lemma LookupNeverAmbiguous(units: seq<Unit>, code: string)
    requires UniqueCodes(units)
    ensures !Lookup(units, code).MultipleFound?
  {
    if IsRoutableCode(code) && |UnitsWithCode(units, code)| > 0 {
      var u := UnitsWithCode(units, code)[0];
      var k :| 0 <= k < |units| && units[k] == u;
      SingleMatchUnderUniqueCodes(units, k);
    }
  }

  // ---------------------------------------------------------------------
  // Patching a unit
  // ---------------------------------------------------------------------

  datatype Requester = Anonymous | Authenticated(user: UserId)

  /** A request field that is either absent or given a value. */
  datatype Slot<T> = Absent | Present(value: T)

  /** The validated data of a unit patch: the writable fields are the owner
      (which may be given as null) and the size. */
  datatype UnitPatch = UnitPatch(owner: Slot<Option<UserId>>, size: Slot<CatalogModels.Size>)

  /** Saving validated data: every present field overwrites the unit's. */
  function ApplyPatch(unit: Unit, patch: UnitPatch): (saved: Unit)
    ensures saved.id == unit.id && saved.accessCode == unit.accessCode
    ensures patch.owner.Present? ==> saved.owner == patch.owner.value
    ensures patch.owner.Absent? ==> saved.owner == unit.owner
    ensures patch.size.Present? ==> saved.size == patch.size.value
    ensures patch.size.Absent? ==> saved.size == unit.size
  {
    var withOwner := if patch.owner.Present? then unit.(owner := patch.owner.value) else unit;
    if patch.size.Present? then withOwner.(size := patch.size.value) else withOwner
  }

  /**
   * `perform_update`: an authenticated requester who did not send an owner
   * becomes the owner; otherwise the validated data is saved as given. The
   * unit's current owner is not consulted.
   */
  function PerformUpdate(requester: Requester, unit: Unit, patch: UnitPatch): (saved: Unit)
    ensures saved.id == unit.id && saved.accessCode == unit.accessCode
    ensures saved.size == (if patch.size.Present? then patch.size.value else unit.size)
    ensures requester.Authenticated? && patch.owner.Absent? ==> saved.owner == Some(requester.user)
    ensures patch.owner.Present? ==> saved.owner == patch.owner.value
    ensures requester.Anonymous? ==> saved == ApplyPatch(unit, patch)
  {
    if requester.Authenticated? && patch.owner.Absent? then
      ApplyPatch(unit, patch.(owner := Present(Some(requester.user))))
    else
      ApplyPatch(unit, patch)
  }

  /** The only owner ever written by an update is the one sent, the
      requester, or the one already there. */
  lemma UpdateOwnerSources(requester: Requester, unit: Unit, patch: UnitPatch)
    ensures var o := PerformUpdate(requester, unit, patch).owner;
            (patch.owner.Present? && o == patch.owner.value)
            || (requester.Authenticated? && o == Some(requester.user))
            || (requester.Anonymous? && patch.owner.Absent? && o == unit.owner)
  {
  }

  /** Repeating the same update changes nothing further. */
  lemma PerformUpdateIdempotent(requester: Requester, unit: Unit, patch: UnitPatch)
    ensures PerformUpdate(requester, PerformUpdate(requester, unit, patch), patch)
            == PerformUpdate(requester, unit, patch)
  {
  }

  /** An authenticated update that omits the owner takes a unit away from
      its current owner. */
  lemma UpdateOverwritesOwner(current: UserId, requester: UserId, unit: Unit, size: Slot<CatalogModels.Size>)
    requires unit.owner == Some(current) && current != requester
    ensures PerformUpdate(Authenticated(requester), unit, UnitPatch(Absent, size)).owner == Some(requester)
  {
  }
}

=== FILE: identifiers.dfy ===
/** The primary keys shared by the account and catalog records. */
module Identifiers {
  /** The primary key of an account (`User`). */
  type UserId = nat
  /** The primary key of an apparel item. */
  type ItemId = nat
}

=== FILE: outcomes.dfy ===
/** Failure-carrying result types shared by the account and catalog models. */
module Outcomes {

  /** A value that may be absent: a nullable column, an optional request field. */
  datatype Option<+T> = None | Some(value: T)

  /** The outcome of an operation that either succeeds with a value or is
      rejected with an error (a validation error, a constraint violation). */
  datatype Result<+T, +E> = Ok(value: T) | Err(error: E)
}
